=== FILE: README.md ===
# auto-commiter: the ignore list and the commit cycle

The extension watches each workspace folder and, once a minute, commits the
files that changed into a tracking repository. It asks a text generator for the
commit message, and it uses a fallback message that counts the files when the
call fails. This project models the three pieces of logic in
`src/extension.ts` that can be stated exactly:

- **The `.gitignore` pipeline** (`GitIgnore`). The file text is split on `'\n'`
  and each line is trimmed. Blank lines and `#` comments are dropped, and one
  leading `/` is removed from each remaining line. A missing file gives no
  patterns. The JavaScript string operations this uses are in `Text`: `split`,
  `join`, `trim` with ECMAScript's white-space set, and the decimal rendering
  of a count.
- **The ignore list** (`GitIgnore`). It is the 27 default globs, with the
  tracking repository's own path first, followed by `**/` + each pattern, in
  order.
- **The changed-file set and the commit cycle** (`Tracking`).
  - `ChangedFiles` is the workspace's `Set`. It is kept as a duplicate-free
    sequence because a JavaScript `Set` iterates in insertion order, and that
    order reaches the prompt.
  - `Repository` is the tracking repository, seen as its list of commit
    messages.
  - `OnWatcherEvent` is the watcher's handlers, and `DeliverEvents` runs them
    over a sequence of events.
  - `CommitChanges` is one timer tick: no commit when the set is empty;
    otherwise exactly one commit, with `<timestamp> - <generated text>` or
    `<timestamp> - Changes in N files`, after which the set is empty. The tick
    is not atomic. Watcher events can arrive while it awaits the generator,
    `git.add` and `git.commit`; the model takes them as two event sequences.
    Their paths are never in the prompt, but `clear()` drops them, and the
    fallback count N includes the new ones that arrived before it was read.

The outside world enters as parameters:

- the `.gitignore` text is an `Option<string>` (`None` when the file does not
  exist);
- the timestamp is an opaque string;
- the generator and the commit inside the `try` block together are a function
  from the prompt to `Option<string>`. `None` means something in that block
  threw, and the fallback commit is made instead.

The generated text goes into the message exactly as returned. The code does not
trim it. The changed paths keep their insertion order, as the `Set` does.

## Model

| member | source | states |
|---|---|---|
| Text.Split | src/extension.ts:19 | `split('\n')` always yields at least one piece, and no piece contains the separator |
| Text.SplitLength | src/extension.ts:19 | there is one more piece than there are separators in the text |
| Text.JoinSplit | src/extension.ts:19 | joining the pieces with the separator gives back the original text exactly |
| Text.SplitJoin | src/extension.ts:19 | splitting a join of separator-free pieces gives back the pieces |
| Text.StartsWith | src/extension.ts:21-22 | `startsWith(p)` holds exactly when the text is `p` followed by something |
| Text.Join | src/extension.ts:149 | `join` of no pieces is empty, the result starts with the first piece, and every character comes from a piece or the separator |
| Text.Trim | src/extension.ts:20 | the trimmed line is no longer than the line, and it neither starts nor ends with white space |
| Text.TrimmedAt | src/extension.ts:20 | the trimmed line is an infix of the line, with only white space before and after it |
| Text.TrimUnique | src/extension.ts:20 | any such white-space-bounded infix with non-white ends is the trim, so trim is fully determined |
| Text.TrimIdempotent | src/extension.ts:20 | trimming a trimmed line changes nothing |
| Text.TrimPadding | src/extension.ts:20 | white space added before or after a line (a CR from a CRLF ending, say) does not change its trim |
| Text.NatToString | src/extension.ts:161 | the count in the fallback message is non-empty decimal digits, with no leading zero except for 0 itself |
| Text.DecimalRoundTrip | src/extension.ts:161 | reading the rendered digits back gives the count |
| GitIgnore.IsPatternLine | src/extension.ts:21 | a trimmed line is kept exactly when it is non-empty and its first character is not `#` |
| GitIgnore.TrimEach | src/extension.ts:20 | one line out per line in, none starting or ending with white space (that line k is exactly `Trim` of input line k is stated, for the kept lines, by `KeepSelects` and `NormaliseSelects`) |
| GitIgnore.KeepPatternLines | src/extension.ts:21 | no more lines than given; every kept line is a pattern line taken from the input |
| GitIgnore.StripEach | src/extension.ts:22 | one pattern per kept line, in order; each is the line or the line without its first character, and it is the line unchanged exactly when the line does not start with `/` |
| GitIgnore.StripLeadingSlash | src/extension.ts:22 | the pattern is the line or the line without its first character, and the character is removed exactly when it is `/` |
| GitIgnore.OneSlashOnly | src/extension.ts:22 | only one slash is stripped: `//a` gives `/a` and `/` gives the empty pattern |
| GitIgnore.GitIgnorePatterns | src/extension.ts:15-24 | a missing `.gitignore` yields no patterns |
| GitIgnore.Normalise | src/extension.ts:19-22 | the whole line pipeline yields no more patterns than lines (what each pattern is: `NormaliseSelects`) |
| GitIgnore.KeepSelects | src/extension.ts:19-21 | trimming then filtering yields exactly the trimmed kept lines, one for each index `KeptLines` selects, in that order |
| GitIgnore.KeptLines | src/extension.ts:19-21 | the lines kept by the filter are, in increasing order, exactly those that are neither blank nor start with `#` after trimming |
| GitIgnore.NormaliseSelects | src/extension.ts:19-22 | pattern k is kept line k, trimmed, with at most one leading slash removed; no more patterns than lines |
| GitIgnore.PatternsFromLines | src/extension.ts:15-22 | for a file's text: every pattern comes, in line order, from a non-blank, non-comment line; there are at most as many patterns as `'\n'`-separated lines |
| GitIgnore.CrlfSameAsLf | src/extension.ts:19-21 | a file whose lines end in CRLF, on any subset of its lines, yields the same patterns as with LF endings |
| GitIgnore.ExampleFile | src/extension.ts:19-22 | the lines of a worked file (a comment, `/node_modules`, `//a`, `/`, an indented CRLF line, the empty piece after the final newline) give `node_modules`, `/a`, the empty pattern and `*.log` |
| GitIgnore.DefaultIgnores | src/extension.ts:56-84 | 27 defaults; the first is the tracking repository's path and every other one starts with `**/` |
| GitIgnore.UnderAnyDirectory | src/extension.ts:87 | one entry per pattern, in order, each `**/` followed by the pattern |
| GitIgnore.AllIgnores | src/extension.ts:56-87 | length 27 + the number of patterns; the defaults in their order, then `**/` + pattern k at position 27 + k |
| GitIgnore.AllIgnoresRoundTrip | src/extension.ts:87 | the project's patterns can be read back off the ignore list whole and in order |
| Tracking.Insert | src/extension.ts:100-106 | `Set.add`: the old members stay first and in order, the path is added last when new, the members are the old ones plus the path, and no duplicates appear |
| Tracking.InsertIdempotent | src/extension.ts:100-106 | recording the same path twice is recording it once |
| Tracking.AfterEventsContents | src/extension.ts:97-106 | after a run of watcher events the set holds each old path and each path of an `add` or `change` event exactly once, the old ones first and in order |
| Tracking.CountAfterEvents | src/extension.ts:148-161 | events during a cycle never shrink the set, and leave its size unchanged exactly when every path they report was already in it |
| Tracking.SizeIsCardinality | src/extension.ts:161 | the sequence's length is the `size` of the set it stands for |
| Tracking.Basename | src/extension.ts:149 | a base name has no `/` and uses only the path's characters |
| Tracking.BasenameOfJoin | src/extension.ts:149 | the base name of `dir/name` is `name` |
| Tracking.Basenames | src/extension.ts:149 | one base name per changed file, in set order, none containing `/` |
| Tracking.Prompt | src/extension.ts:148-151 | the prompt ends with a newline and the request, and no `/` occurs before that newline, so no directory part of a path reaches the generator |
| Tracking.PromptLines | src/extension.ts:148-151 | the prompt's first line is the changed files' base names joined by `", "`, in set order; the fixed request follows |
| Tracking.CommitMessage | src/extension.ts:153-161 | every commit message starts with `<timestamp> - `; on success the rest of it is exactly the generated text |
| Tracking.FallbackCount | src/extension.ts:161 | the fallback message is exactly the timestamp, ` - Changes in `, the number of changed files in decimal, and ` files`; its digits read back to the number |
| Tracking.ChangedFiles.constructor | src/extension.ts:97 | a new set is empty |
| Tracking.ChangedFiles.Add | src/extension.ts:100-106 | the set becomes `Insert(old set, path)` and stays duplicate-free |
| Tracking.ChangedFiles.Clear | src/extension.ts:165 | the set becomes empty |
| Tracking.Repository.Commit | src/extension.ts:156-161 | a commit appends its message to the log and changes nothing else |
| Tracking.OnWatcherEvent | src/extension.ts:100-106 | `add` and `change` insert the path; every other watcher event leaves the set alone |
| Tracking.DeliverEvents | src/extension.ts:100-106 | after the events of a run are handled one by one, the set is `AfterEvents` of the old set and the run, and stays duplicate-free |
| Tracking.CommitChanges | src/extension.ts:128-166 | empty set: no commit and the set is unchanged; otherwise exactly one commit, whose message comes from the prompt of the set as it was when the tick began, with the fallback count N being the size after the events that arrived before the fallback message was built; then the set is empty, including the paths that arrived during the tick |
| Tracking.TwoTicks | src/extension.ts:111-113 | when the first cycle finishes before the second tick starts and no event comes between them, only the first tick can commit, whatever arrived during the first cycle |

## Left out

- Editor glue is not modelled: activation, deactivation, the information and error pop-ups, the `onDidCloseTerminal` final commit, and console logging.
- The module-level map from workspace to changed-file set is not modelled. Only the final-commit hook reads it, and that hook is left out.
- Each workspace folder gets its own set and repository; the model covers one folder.
- The watcher's setup and what its globs match are left out. The matching is done by a foreign library, so the model only builds the ignore list.
- Filesystem access is left out: the existence check and read of `.gitignore`, creating the tracking directory, and the loop that copies the changed files into it (lines 139-144). That loop only performs file I/O and changes no state the model tracks.
- The tracking repository is opened at `.code-tracking` but files are copied under `code-tracking`. The model takes the tracking repository's path as a parameter and does not model where the copies are written, so it does not reflect this. The copies land under `code-tracking/`, which the default ignores do not cover (`src/extension.ts` line 57 adds only the `.code-tracking` path built at line 40), so unless the project's `.gitignore` lists it the watcher reports each copy as an `add` event; such events are among those the `waiting` and `committing` sequences of `CommitChanges` can carry.
- `git init` and `git add .` are left out; the repository is modelled only through its commit log.
- The generator's network request, and the key and model name it uses, are left out. The generator is a parameter from prompt to optional text.
- The one-minute `setInterval` timer and the clock are left out. Each tick is one call of `CommitChanges`, and the ISO timestamp is an opaque string.
- Tracking.TwoTicks: assumes that the first cycle completes before the second tick starts. `setInterval` does not wait for the async callback, so when a cycle's awaits outlast the interval two cycles overlap. Both can then see a non-empty set and both can commit, each with a prompt built from that set. The model runs one cycle at a time and does not represent that overlap.
- Tracking.CommitChanges: assumes that the copy loop (lines 139-144), the fallback `git.add(".")` (line 160) and the fallback `git.commit` (line 161) return normally. If any of them throws, the exception propagates before `clear()` and the set keeps its paths; the model does not represent that path. One way this happens is a file that was recorded and then deleted before the tick: `copyFileSync` then fails on every later tick.
- GitIgnore.TrimEach: its own contract gives the shape of each trimmed line but not that element k is `Trim` of line k; stated as an ensures, that equality makes the proofs about CRLF files too costly, so the value of each kept line is stated by `KeepSelects` and `NormaliseSelects` instead.
- Text.Split, Text.Trim: strings are sequences of Unicode scalar values, not UTF-16 code units, so lone surrogates are not represented.
- Tracking.Basename: models POSIX `path.basename` without a suffix argument; Windows separators and drive letters are not modelled.
- Tracking.PromptLines: states only the line structure of the prompt; the generator's response to it is a parameter.

=== FILE: gitignore.dfy ===
/**
 * The watcher's ignore list: the project's `.gitignore` lines turned into
 * patterns, and those patterns appended, under any directory, to the fixed
 * default globs.
 */
module GitIgnore {
  import opened Wrappers
  import opened Text

  // ---------------------------------------------------------------------------
  // .gitignore lines to patterns
  // ---------------------------------------------------------------------------

  /** A trimmed line that yields a pattern: neither blank nor a `#` comment. */
  predicate IsPatternLine(line: string)
    ensures IsPatternLine(line) <==> |line| > 0 && line[0] != '#'
  {
    line != "" && !StartsWith(line, "#")
  }

  /** Removes one leading `/`, and only one. */
  function StripLeadingSlash(p: string): (r: string)
    ensures p == r || p == "/" + r
    ensures p == r <==> !StartsWith(p, "/")
  {
    if StartsWith(p, "/") then p[1..] else p
  }

  /** The `map(line => line.trim())` stage: every line, in order, without white space at either end. */
  function TrimEach(lines: seq<string>): (r: seq<string>)
    ensures |r| == |lines|
    ensures forall k :: 0 <= k < |r| ==> r[k] == [] || (!IsSpace(r[k][0]) && !IsSpace(r[k][|r[k]| - 1]))
  {
    seq(|lines|, k requires 0 <= k < |lines| => Trim(lines[k]))
  }

  /** The `filter(line => line && !line.startsWith('#'))` stage: only pattern lines, all taken from the input. */
  function KeepPatternLines(lines: seq<string>): (r: seq<string>)
    ensures |r| <= |lines|
    ensures forall k :: 0 <= k < |r| ==> IsPatternLine(r[k]) && r[k] in lines
  {
    if lines == [] then []
    else
      var front := lines[..|lines| - 1];
      var last := lines[|lines| - 1];
      var prev := KeepPatternLines(front);
      assert forall x :: x in front ==> x in lines;
      prev + (if IsPatternLine(last) then [last] else [])
  }

  /** Appending a line to the input appends it to the output exactly when it is a pattern line. */
  lemma KeepPatternLinesSnoc(lines: seq<string>, x: string)
    ensures KeepPatternLines(lines + [x]) == KeepPatternLines(lines) + (if IsPatternLine(x) then [x] else [])
  {
    assert (lines + [x])[..|lines|] == lines;
  }

  /** The final `map` stage: each pattern loses at most one leading slash, order kept. */
  function StripEach(patterns: seq<string>): (r: seq<string>)
    ensures |r| == |patterns|
    ensures forall k :: 0 <= k < |r| ==> patterns[k] == r[k] || patterns[k] == "/" + r[k]
    ensures forall k :: 0 <= k < |r| ==> (r[k] == patterns[k] <==> !StartsWith(patterns[k], "/"))
  {
    seq(|patterns|, k requires 0 <= k < |patterns| => StripLeadingSlash(patterns[k]))
  }

  /** The whole pipeline applied to the lines of the file (see NormaliseSelects). */
  function Normalise(lines: seq<string>): (r: seq<string>)
    ensures |r| <= |lines|
  {
    StripEach(KeepPatternLines(TrimEach(lines)))
  }

  /**
   * The patterns of a `.gitignore` whose text is `content`, or of a missing
   * file (`None`), which has none.
   */
  function GitIgnorePatterns(content: Option<string>): (r: seq<string>)
    ensures content == None ==> r == []
  {
    match content
    case None => []
    case Some(text) => Normalise(Split(text, '\n'))
  }

  /**
   * The positions of the lines that yield a pattern, in increasing order: all
   * of them and no others.
   */
  function KeptLines(lines: seq<string>): (idx: seq<nat>)
    ensures |idx| <= |lines|
    ensures forall k :: 0 <= k < |idx| ==> idx[k] < |lines| && IsPatternLine(Trim(lines[idx[k]]))
    ensures forall k, l :: 0 <= k < l < |idx| ==> idx[k] < idx[l]
    ensures forall i :: 0 <= i < |lines| && IsPatternLine(Trim(lines[i])) ==> i in idx
  {
    if lines == [] then []
    else
      var n := |lines| - 1;
      var front := lines[..n];
      var prev := KeptLines(front);
      assert forall i :: 0 <= i < n ==> front[i] == lines[i];
      assert forall k :: 0 <= k < |prev| ==> prev[k] < n && IsPatternLine(Trim(lines[prev[k]]));
      assert forall i :: 0 <= i < n && IsPatternLine(Trim(lines[i])) ==> i in prev;
      prev + (if IsPatternLine(Trim(lines[n])) then [n] else [])
  }

  /** The trim-and-filter stages keep exactly the trimmed lines at KeptLines. */
  lemma {:induction false} KeepSelects(lines: seq<string>)
    ensures |KeepPatternLines(TrimEach(lines))| == |KeptLines(lines)|
    ensures forall k :: 0 <= k < |KeptLines(lines)| ==>
      KeepPatternLines(TrimEach(lines))[k] == Trim(lines[KeptLines(lines)[k]])
  {
    if lines != [] {
      var n := |lines| - 1;
      var front := lines[..n];
      var x := Trim(lines[n]);
      assert lines == front + [lines[n]];
      assert TrimEach(lines) == TrimEach(front) + [x];
      KeepPatternLinesSnoc(TrimEach(front), x);
      KeepSelects(front);
      var prev := KeptLines(front);
      var idx := KeptLines(lines);
      var kept := KeepPatternLines(TrimEach(lines));
      var keptFront := KeepPatternLines(TrimEach(front));
      assert idx == prev + (if IsPatternLine(x) then [n] else []);
      assert kept == keptFront + (if IsPatternLine(x) then [x] else []);
      forall k | 0 <= k < |idx| ensures kept[k] == Trim(lines[idx[k]]) {
        if k < |prev| {
          assert kept[k] == keptFront[k] && idx[k] == prev[k];
          assert front[prev[k]] == lines[prev[k]];
        }
      }
    }
  }

  /**
   * Pattern k of a file is line KeptLines(lines)[k], trimmed, with at most one
   * leading slash removed; the patterns follow the order of the lines.
   */
  lemma NormaliseSelects(lines: seq<string>)
    ensures |Normalise(lines)| == |KeptLines(lines)| <= |lines|
    ensures forall k :: 0 <= k < |KeptLines(lines)| ==>
      Normalise(lines)[k] == StripLeadingSlash(Trim(lines[KeptLines(lines)[k]]))
  {
    KeepSelects(lines);
  }

  /**
   * For the text of an existing file: every pattern comes from a line that is
   * neither blank nor a comment once trimmed, in line order, and there are at
   * most as many patterns as `'\n'`-separated lines.
   */
  lemma PatternsFromLines(text: string)
    ensures var lines := Split(text, '\n');
            var idx := KeptLines(lines);
            var r := GitIgnorePatterns(Some(text));
            && |r| == |idx| <= |lines| == Occurrences(text, '\n') + 1
            && forall k :: 0 <= k < |r| ==> r[k] == StripLeadingSlash(Trim(lines[idx[k]]))
  {
    NormaliseSelects(Split(text, '\n'));
    SplitLength(text, '\n');
  }

  /** `lines[k]`, with a carriage return after it when `cr[k]` holds. */
  function WithCarriageReturns(lines: seq<string>, cr: seq<bool>): (r: seq<string>)
    requires |cr| == |lines|
  {
    seq(|lines|, k requires 0 <= k < |lines| => lines[k] + (if cr[k] then "\r" else ""))
  }

  /** A file with CRLF line endings, on any of its lines, yields the same patterns as with LF endings. */
  lemma CrlfSameAsLf(lines: seq<string>, cr: seq<bool>)
    requires |lines| >= 1 && |cr| == |lines|
    requires forall k :: 0 <= k < |lines| ==> '\n' !in lines[k]
    ensures GitIgnorePatterns(Some(Join(WithCarriageReturns(lines, cr), "\n")))
         == GitIgnorePatterns(Some(Join(lines, "\n")))
  {
    var crlf := WithCarriageReturns(lines, cr);
    forall k | 0 <= k < |crlf| ensures '\n' !in crlf[k] && Trim(crlf[k]) == Trim(lines[k]) {
      var pad := if cr[k] then "\r" else "";
      assert AllSpace(pad);
      assert crlf[k] == "" + lines[k] + pad;
      TrimPadding("", lines[k], pad);
    }
    SplitJoin(crlf, '\n');
    SplitJoin(lines, '\n');
    assert TrimEach(crlf) == TrimEach(lines);
  }

  /** Only one slash is stripped, so patterns may keep a slash or be empty. */
  lemma OneSlashOnly()
    ensures StripLeadingSlash("//a") == "/a"
    ensures StripLeadingSlash("/") == ""
  {
  }

  // ---------------------------------------------------------------------------
  // the lines of a worked file: a comment, a rooted path, a doubled slash, a
  // lone slash, a CRLF line with indentation, and the empty piece that follows
  // the final newline
  // ---------------------------------------------------------------------------

  // The worked file is checked one stage at a time: trimming, filtering,
  // then slash stripping.
  /** An indented line with a CRLF ending trims to its text. */
  lemma ExampleIndentedCrlf()
    ensures Trim("  *.log\r") == "*.log"
  {
    TrimUnique("*.log", "*.log", 0);
    TrimPadding("  ", "*.log", "\r");
    assert "  " + "*.log" + "\r" == "  *.log\r";
  }

  lemma ExampleTrims()
    ensures TrimEach(["# deps", "/node_modules", "//a", "/", "  *.log\r", ""]) == ["# deps", "/node_modules", "//a", "/", "*.log", ""]
  {
    TrimUnique("# deps", "# deps", 0);
    TrimUnique("/node_modules", "/node_modules", 0);
    TrimUnique("//a", "//a", 0);
    TrimUnique("/", "/", 0);
    ExampleIndentedCrlf();
    TrimUnique("", "", 0);
  }

  lemma ExampleFilter()
    ensures KeepPatternLines(["# deps", "/node_modules", "//a", "/", "*.log", ""]) == ["/node_modules", "//a", "/", "*.log"]
  {
    var t := ["# deps", "/node_modules", "//a", "/", "*.log", ""];
    assert t[..5] == ["# deps", "/node_modules", "//a", "/", "*.log"];
    assert t[..4] == ["# deps", "/node_modules", "//a", "/"];
    assert t[..3] == ["# deps", "/node_modules", "//a"];
    assert t[..2] == ["# deps", "/node_modules"];
    assert t[..1] == ["# deps"];
    assert t[0][..1] == "#";
    assert t[1][..1] == "/" && t[2][..1] == "/" && t[3][..1] == "/" && t[4][..1] == "*";
    assert t[..1][..0] == [];
    assert KeepPatternLines(t[..1]) == [];
    assert t[..2][..1] == t[..1];
    assert KeepPatternLines(t[..2]) == ["/node_modules"];
    assert t[..3][..2] == t[..2];
    assert KeepPatternLines(t[..3]) == ["/node_modules", "//a"];
    assert t[..4][..3] == t[..3];
    assert KeepPatternLines(t[..4]) == ["/node_modules", "//a", "/"];
    assert t[..5][..4] == t[..4];
    assert KeepPatternLines(t[..5]) == ["/node_modules", "//a", "/", "*.log"];
  }

  lemma ExampleStrip()
    ensures StripEach(["/node_modules", "//a", "/", "*.log"]) == ["node_modules", "/a", "", "*.log"]
  {
    assert "/node_modules"[..1] == "/" && "/node_modules"[1..] == "node_modules";
    assert "//a"[..1] == "/" && "//a"[1..] == "/a";
    assert "/"[..1] == "/";
    assert "*.log"[..1] == "*";
  }

  lemma ExampleFile()
    ensures Normalise(["# deps", "/node_modules", "//a", "/", "  *.log\r", ""])
         == ["node_modules", "/a", "", "*.log"]
  {
    ExampleTrims();
    ExampleFilter();
    ExampleStrip();
  }

  // ---------------------------------------------------------------------------
  // the ignore list handed to the watcher
  // ---------------------------------------------------------------------------

  /** The default ignores; the first is the tracking repository's own path. */
  function DefaultIgnores(trackingRepo: string): (r: seq<string>)
    ensures |r| == 27 && r[0] == trackingRepo
    ensures forall k :: 1 <= k < |r| ==> StartsWith(r[k], "**/")
  {
    [ trackingRepo,
      "**/node_modules/**",
      "**/.git/**",
      "**/__pycache__/**",
      "**/venv/**",
      "**/env/**",
      "**/dist/**",
      "**/build/**",
      "**/target/**",
      "**/.vs/**",
      "**/.vscode/**",
      "**/.idea/**",
      "**/*.log",
      "**/.DS_Store",
      "**/coverage/**",
      "**/tmp/**",
      "**/temp/**",
      "**/.next/**",
      "**/.cache/**",
      "**/*.pyc",
      "**/*.pyo",
      "**/*.pyd",
      "**/*.so",
      "**/*.dll",
      "**/*.dylib",
      "**/bin/**",
      "**/obj/**" ]
  }

  /** Each pattern made to match under any directory, in order. */
  function UnderAnyDirectory(patterns: seq<string>): (r: seq<string>)
    ensures |r| == |patterns|
    ensures forall k :: 0 <= k < |r| ==> StartsWith(r[k], "**/") && r[k][3..] == patterns[k]
  {
    if patterns == [] then []
    else ["**/" + patterns[0]] + UnderAnyDirectory(patterns[1..])
  }

  /** The defaults followed by the project's patterns. */
  function AllIgnores(trackingRepo: string, patterns: seq<string>): (r: seq<string>)
    ensures |r| == 27 + |patterns|
    ensures r[..27] == DefaultIgnores(trackingRepo)
    ensures forall k :: 0 <= k < |patterns| ==> r[27 + k] == "**/" + patterns[k]
  {
    var tail := UnderAnyDirectory(patterns);
    assert forall k :: 0 <= k < |tail| ==> tail[k] == tail[k][..3] + tail[k][3..];
    DefaultIgnores(trackingRepo) + tail
  }

  // Drops the "**/" prefix of each entry.
  function StripAnyDirectory(ignores: seq<string>): seq<string>
    requires forall k :: 0 <= k < |ignores| ==> StartsWith(ignores[k], "**/")
  {
    if ignores == [] then []
    else
      var first := ignores[0];
      assert StartsWith(first, "**/");
      [first[3..]] + StripAnyDirectory(ignores[1..])
  }

  /** The project's patterns read back off an ignore list. */
  function ProjectPatterns(ignores: seq<string>): seq<string>
    requires |ignores| >= 27
    requires forall k :: 27 <= k < |ignores| ==> StartsWith(ignores[k], "**/")
  {
    StripAnyDirectory(ignores[27..])
  }

  lemma {:induction false} StripUnderAnyDirectory(patterns: seq<string>)
    ensures StripAnyDirectory(UnderAnyDirectory(patterns)) == patterns
  {
    if patterns != [] {
      StripUnderAnyDirectory(patterns[1..]);
    }
  }

  /** The ignore list keeps the project's patterns whole and in order. */
  lemma AllIgnoresRoundTrip(trackingRepo: string, patterns: seq<string>)
    ensures var r := AllIgnores(trackingRepo, patterns);
            (forall k :: 27 <= k < |r| ==> StartsWith(r[k], "**/")) && ProjectPatterns(r) == patterns
  {
    var r := AllIgnores(trackingRepo, patterns);
    assert r[27..] == UnderAnyDirectory(patterns);
    StripUnderAnyDirectory(patterns);
  }
}

=== FILE: text.dfy ===
/**
 * The JavaScript string operations the extension relies on, as functions on
 * `seq<char>`: `String.prototype.split` with a one-character separator,
 * `Array.prototype.join`, `String.prototype.trim`, `startsWith`, and the
 * decimal rendering of a non-negative integer inside a template literal.
 */
module Text {

  /** `s.startsWith(p)`. */
  predicate StartsWith(s: string, p: string)
    ensures StartsWith(s, p) <==> exists rest :: s == p + rest
  {
    if |p| <= |s| && s[..|p|] == p then
      assert s == p + s[|p|..];
      true
    else
      false
  }

  // ---------------------------------------------------------------------------
  // split and join
  // ---------------------------------------------------------------------------

  /** `s.split(c)`: the pieces between occurrences of `c`, always at least one. */
  function Split(s: string, c: char): (r: seq<string>)
    ensures |r| >= 1
    ensures forall k :: 0 <= k < |r| ==> c !in r[k]
    decreases |s|
  {
    if s == [] then [""]
    else
      var rest := Split(s[1..], c);
      if s[0] == c then [""] + rest
      else [[s[0]] + rest[0]] + rest[1..]
  }

  /** `xs.join(sep)`; the empty list joins to the empty string. */
  function Join(xs: seq<string>, sep: string): (r: string)
    ensures xs == [] ==> r == []
    ensures |xs| > 0 ==> StartsWith(r, xs[0])
    ensures forall ch :: ch in r ==> ch in sep || exists k :: 0 <= k < |xs| && ch in xs[k]
  {
    if xs == [] then ""
    else if |xs| == 1 then xs[0]
    else xs[0] + sep + Join(xs[1..], sep)
  }

  /** Number of occurrences of `c` in `s`. */
  function Occurrences(s: string, c: char): nat
  {
    if s == [] then 0 else (if s[0] == c then 1 else 0) + Occurrences(s[1..], c)
  }

  /** Splitting yields one more piece than there are separators. */
  lemma {:induction false} SplitLength(s: string, c: char)
    ensures |Split(s, c)| == Occurrences(s, c) + 1
  {
    if s != [] {
      SplitLength(s[1..], c);
    }
  }

  /** Joining the pieces back with the separator gives the original text. */
  lemma {:induction false} JoinSplit(s: string, c: char)
    ensures Join(Split(s, c), [c]) == s
  {
    if s != [] {
      var rest := Split(s[1..], c);
      JoinSplit(s[1..], c);
      if s[0] == c {
        assert Split(s, c) == [""] + rest;
      } else {
        var first := [s[0]] + rest[0];
        assert Split(s, c) == [first] + rest[1..];
        if |rest| == 1 {
          assert Join(rest, [c]) == rest[0];
        } else {
          assert Join(rest, [c]) == rest[0] + [c] + Join(rest[1..], [c]);
          assert ([first] + rest[1..])[1..] == rest[1..];
        }
      }
    }
  }

  /** A text without the separator is a single piece. */
  lemma {:induction false} SplitNoSeparator(s: string, c: char)
    requires c !in s
    ensures Split(s, c) == [s]
  {
    if s != [] {
      SplitNoSeparator(s[1..], c);
      assert [s[0]] + s[1..] == s;
    }
  }

  /** Splitting at the first separator. */
  lemma {:induction false} SplitAtFirst(a: string, c: char, b: string)
    requires c !in a
    ensures Split(a + [c] + b, c) == [a] + Split(b, c)
  {
    if a == [] {
      assert (a + [c] + b)[1..] == b;
    } else {
      assert (a + [c] + b)[1..] == a[1..] + [c] + b;
      SplitAtFirst(a[1..], c, b);
      assert [a[0]] + a[1..] == a;
    }
  }

  /** Splitting a join of separator-free pieces gives the pieces back. */
  lemma {:induction false} SplitJoin(xs: seq<string>, c: char)
    requires |xs| >= 1
    requires forall k :: 0 <= k < |xs| ==> c !in xs[k]
    ensures Split(Join(xs, [c]), c) == xs
  {
    if |xs| == 1 {
      SplitNoSeparator(xs[0], c);
    } else {
      SplitJoin(xs[1..], c);
      SplitAtFirst(xs[0], c, Join(xs[1..], [c]));
    }
  }

  // ---------------------------------------------------------------------------
  // trim
  // ---------------------------------------------------------------------------

  /**
   * The code points `trim` removes: the WhiteSpace and LineTerminator
   * productions of ECMAScript (sections 12.2 and 12.3 of ECMA-262), that is
   * TAB, VT, FF, SP, NBSP, ZWNBSP, the other Space_Separator characters, LF,
   * CR, LS and PS.
   */
  predicate IsSpace(ch: char) {
    || ch == '\t' || ch == '\n' || ch == '\U{000B}' || ch == '\U{000C}' || ch == '\r'
    || ch == ' ' || ch == '\U{00A0}' || ch == '\U{1680}'
    || ('\U{2000}' <= ch <= '\U{200A}')
    || ch == '\U{2028}' || ch == '\U{2029}' || ch == '\U{202F}' || ch == '\U{205F}'
    || ch == '\U{3000}' || ch == '\U{FEFF}'
  }

  predicate AllSpace(s: string) {
    forall k :: 0 <= k < |s| ==> IsSpace(s[k])
  }

  /** `s.trimStart()`: drops leading white space (see TrimStartSuffix). */
  function TrimStart(s: string): (r: string)
    ensures |r| <= |s|
    ensures r == [] || !IsSpace(r[0])
  {
    if s != [] && IsSpace(s[0]) then TrimStart(s[1..]) else s
  }

  /** What trimStart drops is white space, and what it keeps is a suffix. */
  lemma {:induction false} TrimStartSuffix(s: string)
    ensures var r := TrimStart(s); r == s[|s| - |r|..] && AllSpace(s[..|s| - |r|])
  {
    if s != [] && IsSpace(s[0]) {
      TrimStartSuffix(s[1..]);
      var r := TrimStart(s[1..]);
      assert s[..|s| - |r|] == [s[0]] + s[1..][..|s| - 1 - |r|];
    }
  }

  /** `s.trimEnd()`: drops trailing white space (see TrimEndPrefix). */
  function TrimEnd(s: string): (r: string)
    ensures |r| <= |s|
    ensures r == [] || !IsSpace(r[|r| - 1])
  {
    if s != [] && IsSpace(s[|s| - 1]) then TrimEnd(s[..|s| - 1]) else s
  }

  /** What trimEnd drops is white space, and what it keeps is a prefix. */
  lemma {:induction false} TrimEndPrefix(s: string)
    ensures var r := TrimEnd(s); r == s[..|r|] && AllSpace(s[|r|..])
  {
    if s != [] && IsSpace(s[|s| - 1]) {
      TrimEndPrefix(s[..|s| - 1]);
      var r := TrimEnd(s[..|s| - 1]);
      assert s[|r|..] == s[..|s| - 1][|r|..] + [s[|s| - 1]];
    }
  }

  /** `s.trim()`: `s` without its leading and trailing white space (see TrimmedAt). */
  function Trim(s: string): (r: string)
    ensures |r| <= |s|
    ensures r == [] || (!IsSpace(r[0]) && !IsSpace(r[|r| - 1]))
  {
    var e := TrimEnd(s);
    TrimStartSuffix(e);
    TrimStart(e)
  }

  /**
   * The trim is the infix of `s` with only white space around it; with the
   * ends clause of Trim this determines the result (see TrimUnique).
   */
  lemma TrimmedAt(s: string)
    ensures var r := Trim(s); IsTrimmedAt(s, r, |TrimEnd(s)| - |r|)
  {
    var e := TrimEnd(s);
    var r := TrimStart(e);
    var i := |e| - |r|;
    TrimEndPrefix(s);
    TrimStartSuffix(e);
    assert s[..i] == e[..i];
    assert s[i + |r|..] == s[|e|..];
  }

  /** `r` sits at offset `i` of `s`, with only white space before and after. */
  predicate IsTrimmedAt(s: string, r: string, i: nat) {
    i + |r| <= |s| && s[i..i + |r|] == r && AllSpace(s[..i]) && AllSpace(s[i + |r|..])
  }

  /** Dropping leading white space stops at the first other code point. */
  lemma {:induction false} TrimStartAt(s: string, i: nat)
    requires i <= |s| && AllSpace(s[..i])
    requires i == |s| || !IsSpace(s[i])
    ensures TrimStart(s) == s[i..]
  {
    if i > 0 {
      assert IsSpace(s[..i][0]);
      assert s[1..][..i - 1] == s[1..i];
      TrimStartAt(s[1..], i - 1);
    }
  }

  /** Dropping trailing white space stops at the last other code point. */
  lemma {:induction false} TrimEndAt(s: string, e: nat)
    requires e <= |s| && AllSpace(s[e..])
    requires e == 0 || !IsSpace(s[e - 1])
    ensures TrimEnd(s) == s[..e]
  {
    if e < |s| {
      assert IsSpace(s[e..][|s| - 1 - e]);
      assert s[..|s| - 1][e..] == s[e..|s| - 1];
      TrimEndAt(s[..|s| - 1], e);
    }
  }

  /** Any white-space-bounded infix whose ends are not white space is the trim. */
  lemma TrimUnique(s: string, r: string, i: nat)
    requires IsTrimmedAt(s, r, i)
    requires r == [] || (!IsSpace(r[0]) && !IsSpace(r[|r| - 1]))
    ensures Trim(s) == r
  {
    if r == [] {
      assert s == s[..i] + s[i..];
      assert AllSpace(s[0..]);
      TrimEndAt(s, 0);
    } else {
      var e := i + |r|;
      assert s[e - 1] == r[|r| - 1];
      TrimEndAt(s, e);
      assert s[..e][..i] == s[..i];
      assert s[..e][i] == r[0];
      TrimStartAt(s[..e], i);
    }
  }

  lemma AllSpaceConcat(a: string, b: string)
    requires AllSpace(a) && AllSpace(b)
    ensures AllSpace(a + b)
  {
    forall k | 0 <= k < |a + b| ensures IsSpace((a + b)[k]) {
      if k >= |a| { assert (a + b)[k] == b[k - |a|]; }
    }
  }

  /** Trimming twice is trimming once. */
  lemma TrimIdempotent(s: string)
    ensures Trim(Trim(s)) == Trim(s)
  {
    var r := Trim(s);
    assert r[0..] == r && r[..0] == [] && r[|r|..] == [];
    TrimUnique(r, r, 0);
  }

  /** White space added around a line does not change its trim: a CR left by a CRLF line ending, for one. */
  lemma TrimPadding(pre: string, s: string, post: string)
    requires AllSpace(pre) && AllSpace(post)
    ensures Trim(pre + s + post) == Trim(s)
  {
    var r := Trim(s);
    var i := |TrimEnd(s)| - |r|;
    TrimmedAt(s);
    var t := pre + s + post;
    var k := |pre| + i;
    assert t[k..k + |r|] == s[i..i + |r|];
    assert t[..k] == pre + s[..i];
    assert t[k + |r|..] == s[i + |r|..] + post;
    AllSpaceConcat(pre, s[..i]);
    AllSpaceConcat(s[i + |r|..], post);
    TrimUnique(t, r, k);
  }

  // ---------------------------------------------------------------------------
  // decimal rendering of a count
  // ---------------------------------------------------------------------------

  predicate IsDigit(ch: char) {
    '0' <= ch <= '9'
  }

  predicate AllDigits(s: string) {
    forall k :: 0 <= k < |s| ==> IsDigit(s[k])
  }

  function DigitChar(d: nat): (ch: char)
    requires d < 10
  {
    ('0' as int + d) as char
  }

  function DigitValue(ch: char): nat
    requires IsDigit(ch)
  {
    ch as int - '0' as int
  }

  /** A non-negative integer in a template literal: its decimal digits, with no leading zero. */
  function NatToString(n: nat): (r: string)
    ensures |r| >= 1 && AllDigits(r)
    ensures r[0] == '0' ==> n == 0 && r == "0"
  {
    if n < 10 then [DigitChar(n)] else NatToString(n / 10) + [DigitChar(n % 10)]
  }

  /** The number a string of decimal digits denotes. */
  function DecimalValue(s: string): nat
    requires AllDigits(s)
  {
    if s == [] then 0 else 10 * DecimalValue(s[..|s| - 1]) + DigitValue(s[|s| - 1])
  }

  /** Reading the rendered digits back gives the number. */
  lemma {:induction false} DecimalRoundTrip(n: nat)
    ensures DecimalValue(NatToString(n)) == n
  {
    var r := NatToString(n);
    if n >= 10 {
      DecimalRoundTrip(n / 10);
      assert r[..|r| - 1] == NatToString(n / 10);
    }
  }
}

=== FILE: tracking.dfy ===
/**
 * The changed-file set that the watcher fills, and the commit cycle that the
 * interval timer runs over it: no commit when nothing changed, otherwise one
 * commit whose message is generated from the changed files (or a fallback
 * counting them), after which the set is emptied.
 */
module Tracking {
  import opened Wrappers
  import opened Text

  // ---------------------------------------------------------------------------
  // the changed-file set as a value
  // ---------------------------------------------------------------------------

  predicate NoDuplicates(s: seq<string>) {
    forall i, j :: 0 <= i < j < |s| ==> s[i] != s[j]
  }

  /**
   * `set.add(x)` on a set that iterates in insertion order: a member stays
   * where it is, a new one goes last.
   */
  function Insert(s: seq<string>, x: string): (r: seq<string>)
    ensures |s| <= |r| && r[..|s|] == s
    ensures |r| == if x in s then |s| else |s| + 1
    ensures forall y :: y in r <==> y in s || y == x
    ensures NoDuplicates(s) ==> NoDuplicates(r)
  {
    if x in s then s else s + [x]
  }

  /** Adding the same path twice is adding it once. */
  lemma InsertIdempotent(s: seq<string>, x: string)
    ensures Insert(Insert(s, x), x) == Insert(s, x)
  {
  }

  /** Without duplicates, the length of the sequence is the `size` of the set. */
  lemma {:induction false} SizeIsCardinality(s: seq<string>)
    requires NoDuplicates(s)
    ensures |set y | y in s| == |s|
  {
    if s != [] {
      var front := s[..|s| - 1];
      var last := s[|s| - 1];
      SizeIsCardinality(front);
      assert last !in front by {
        forall i | 0 <= i < |front| ensures front[i] != last {
          assert front[i] == s[i];
        }
      }
      assert (set y | y in s) == (set y | y in front) + {last} by {
        forall y ensures y in s <==> y in front || y == last {
          if y in s {
            var i :| 0 <= i < |s| && s[i] == y;
            if i < |s| - 1 { assert front[i] == y; }
          }
        }
      }
    }
  }

  // ---------------------------------------------------------------------------
  // the prompt and the commit message
  // ---------------------------------------------------------------------------

  /** The fixed request that follows the file names in the prompt. */
  const Instruction: string :=
    "summarize the work done in the last 30 minutes and give me best suitable commit message for it describing the work done in the best and shortest way possible, no jargon, no other shit, just commit message"

  /** Drops trailing `/` separators. */
  function StripTrailingSlashes(p: string): (r: string)
    ensures |r| <= |p|
    ensures forall ch :: ch in r ==> ch in p
    ensures r == [] || r[|r| - 1] != '/'
  {
    if p != [] && p[|p| - 1] == '/' then StripTrailingSlashes(p[..|p| - 1]) else p
  }

  /** The text after the last `/`. */
  function LastSegment(p: string): (r: string)
    ensures '/' !in r
    ensures forall ch :: ch in r ==> ch in p
  {
    if p == [] || p[|p| - 1] == '/' then []
    else LastSegment(p[..|p| - 1]) + [p[|p| - 1]]
  }

  /** `path.basename(p)` for a POSIX path. */
  function Basename(p: string): (r: string)
    ensures '/' !in r
    ensures forall ch :: ch in r ==> ch in p
  {
    LastSegment(StripTrailingSlashes(p))
  }

  lemma {:induction false} LastSegmentAfterSlash(dir: string, name: string)
    requires '/' !in name
    ensures LastSegment(dir + "/" + name) == name
  {
    var p := dir + "/" + name;
    if name != [] {
      var front := name[..|name| - 1];
      assert p[..|p| - 1] == dir + "/" + front;
      LastSegmentAfterSlash(dir, front);
      assert front + [name[|name| - 1]] == name;
    }
  }

  /** The base name of `dir/name` is `name`, for a file name without separators. */
  lemma BasenameOfJoin(dir: string, name: string)
    requires name != [] && '/' !in name
    ensures Basename(dir + "/" + name) == name
  {
    LastSegmentAfterSlash(dir, name);
  }

  /** The base names of the changed files, in the set's order. */
  function Basenames(files: seq<string>): (r: seq<string>)
    ensures |r| == |files|
    ensures forall k :: 0 <= k < |r| ==> r[k] == Basename(files[k]) && '/' !in r[k]
  {
    seq(|files|, k requires 0 <= k < |files| => Basename(files[k]))
  }

  /**
   * The prompt sent to the generator: the base names joined by `", "`, a
   * newline, the request. No directory part of any path reaches it.
   */
  function Prompt(files: seq<string>): (r: string)
    ensures |Instruction| < |r| && r[|r| - |Instruction| - 1] == '\n'
    ensures r[|r| - |Instruction|..] == Instruction
    ensures forall i :: 0 <= i < |r| - |Instruction| - 1 ==> r[i] != '/'
  {
    var names := Join(Basenames(files), ", ");
    assert forall i :: 0 <= i < |names| ==> names[i] in names;
    names + "\n" + Instruction
  }

  /**
   * When no changed path contains a newline, the first line of the prompt is
   * the joined base names and the rest is the request.
   */
  lemma PromptLines(files: seq<string>)
    requires forall k :: 0 <= k < |files| ==> '\n' !in files[k]
    ensures Split(Prompt(files), '\n') == [Join(Basenames(files), ", ")] + Split(Instruction, '\n')
  {
    var names := Basenames(files);
    forall k | 0 <= k < |names| ensures '\n' !in names[k] { }
    SplitAtFirst(Join(names, ", "), '\n', Instruction);
  }

  /**
   * The message of the one commit of a non-empty cycle: the timestamp, then
   * the generated text or, when generation failed, the number of changed files.
   */
  function CommitMessage(timestamp: string, generated: Option<string>, count: nat): (m: string)
    ensures StartsWith(m, timestamp + " - ")
    ensures generated.Some? ==> m[|timestamp| + 3..] == generated.value
  {
    match generated
    case Some(text) => timestamp + " - " + text
    case None => timestamp + " - Changes in " + NatToString(count) + " files"
  }

  /**
   * The fallback message is the timestamp, ` - Changes in `, the number of
   * changed files in decimal (readable back from its digits), then ` files`.
   */
  lemma FallbackCount(timestamp: string, count: nat)
    ensures var m := CommitMessage(timestamp, None, count);
            && |timestamp| + 14 < |m| - 6
            && m[..|timestamp| + 14] == timestamp + " - Changes in "
            && m[|timestamp| + 14..|m| - 6] == NatToString(count)
            && m[|m| - 6..] == " files"
            && DecimalValue(NatToString(count)) == count
  {
    DecimalRoundTrip(count);
  }

  // ---------------------------------------------------------------------------
  // the mutable state and the commit cycle
  // ---------------------------------------------------------------------------

  /** The events the watcher reports; only `add` and `change` have handlers. */
  datatype WatchEvent = Add(path: string) | Change(path: string) | Unlink(path: string)
                      | AddDir(path: string) | UnlinkDir(path: string)

  /** The set after one watcher event: `add` and `change` record the path. */
  function AfterEvent(s: seq<string>, e: WatchEvent): seq<string>
  {
    if e.Add? || e.Change? then Insert(s, e.path) else s
  }

  /** The set after a run of watcher events, delivered in order. */
  function AfterEvents(s: seq<string>, events: seq<WatchEvent>): seq<string>
    decreases |events|
  {
    if events == [] then s else AfterEvent(AfterEvents(s, events[..|events| - 1]), events[|events| - 1])
  }

  /** Whether some `add` or `change` event of the run reports `path`. */
  predicate Reports(events: seq<WatchEvent>, path: string)
  {
    exists k :: 0 <= k < |events| && (events[k].Add? || events[k].Change?) && events[k].path == path
  }

  /**
   * After a run of events the set holds exactly the paths it held and the
   * paths of the run's `add` and `change` events, each once, with the old
   * members still first and in their order.
   */
  lemma {:induction false} AfterEventsContents(s: seq<string>, events: seq<WatchEvent>)
    requires NoDuplicates(s)
    ensures var r := AfterEvents(s, events);
            && NoDuplicates(r)
            && |s| <= |r| && r[..|s|] == s
            && forall y :: y in r <==> y in s || Reports(events, y)
    decreases |events|
  {
    if events != [] {
      var front := events[..|events| - 1];
      var e := events[|events| - 1];
      AfterEventsContents(s, front);
      var m := AfterEvents(s, front);
      var r := AfterEvent(m, e);
      assert r[..|s|] == r[..|m|][..|s|];
      forall y ensures y in r <==> y in s || Reports(events, y) {
        if Reports(events, y) {
          var k :| 0 <= k < |events| && (events[k].Add? || events[k].Change?) && events[k].path == y;
          if k < |events| - 1 {
            assert front[k] == events[k];
          }
        }
        if Reports(front, y) {
          var k :| 0 <= k < |front| && (front[k].Add? || front[k].Change?) && front[k].path == y;
          assert events[k] == front[k];
        }
      }
    }
  }

  /**
   * The size of the set after a run of events is at least the size before
   * it, and equal to it exactly when every path the run reports was already
   * in the set.
   */
  lemma CountAfterEvents(s: seq<string>, events: seq<WatchEvent>)
    requires NoDuplicates(s)
    ensures |s| <= |AfterEvents(s, events)|
    ensures |AfterEvents(s, events)| == |s| <==> forall y :: Reports(events, y) ==> y in s
  {
    var r := AfterEvents(s, events);
    AfterEventsContents(s, events);
    if |r| == |s| {
      assert r == r[..|s|];
    }
  }

  /** A workspace's `Set` of changed paths, in insertion order. */
  class ChangedFiles {
    var paths: seq<string>

    ghost predicate Valid()
      reads this
    {
      NoDuplicates(paths)
    }

    constructor ()
      ensures Valid() && paths == []
    {
      paths := [];
    }

    /** `add`: a path already present leaves the set as it is. */
    method Add(path: string)
      requires Valid()
      modifies this
      ensures Valid()
      ensures paths == Insert(old(paths), path)
    {
      if path !in paths {
        paths := paths + [path];
      }
    }

    /** `clear`. */
    method Clear()
      modifies this
      ensures Valid() && paths == []
    {
      paths := [];
    }
  }

  /** The tracking repository, seen through its commit messages, oldest first. */
  class Repository {
    var log: seq<string>

    constructor ()
      ensures log == []
    {
      log := [];
    }

    /** `git.commit(message)`. */
    method Commit(message: string)
      modifies this
      ensures log == old(log) + [message]
    {
      log := log + [message];
    }
  }

  /** The watcher's handlers: `add` and `change` record the path; other events are ignored. */
  method OnWatcherEvent(changed: ChangedFiles, event: WatchEvent)
    requires changed.Valid()
    modifies changed
    ensures changed.Valid()
    ensures changed.paths == if event.Add? || event.Change? then Insert(old(changed.paths), event.path)
                             else old(changed.paths)
  {
    match event
    case Add(path) => changed.Add(path);
    case Change(path) => changed.Add(path);
    case _ =>
  }

  /**
   * The watcher's events that arrive, in order, while a commit cycle is
   * suspended at an `await`; each one runs its handler.
   */
  method DeliverEvents(changed: ChangedFiles, events: seq<WatchEvent>)
    requires changed.Valid()
    modifies changed
    ensures changed.Valid()
    ensures changed.paths == AfterEvents(old(changed.paths), events)
  {
    for i := 0 to |events|
      invariant changed.Valid()
      invariant changed.paths == AfterEvents(old(changed.paths), events[..i])
    {
      assert events[..i + 1][..i] == events[..i];
      OnWatcherEvent(changed, events[i]);
    }
    assert events[..|events|] == events;
  }

  /**
   * One commit cycle. `generate` stands for the generator call and the
   * commit inside the `try` block: `Some(text)` when both succeed, `None`
   * when anything there throws and the fallback commit is made instead.
   * The cycle is not atomic: `waiting` are the watcher events that arrive
   * while it awaits the generator and `git.add` (before the fallback message
   * reads the set's size), `committing` those that arrive while it awaits the
   * commit. The prompt was built before either, so those paths are never in
   * it, yet `clear()` drops them; and the fallback count includes the new
   * paths of `waiting`.
   */
  method CommitChanges(git: Repository, changed: ChangedFiles, timestamp: string,
                       generate: string -> Option<string>,
                       waiting: seq<WatchEvent>, committing: seq<WatchEvent>)
    requires changed.Valid()
    modifies git, changed
    ensures changed.Valid()
    ensures old(changed.paths) == [] ==> git.log == old(git.log) && changed.paths == old(changed.paths)
    ensures old(changed.paths) != [] ==>
      && git.log == old(git.log) + [CommitMessage(timestamp, generate(Prompt(old(changed.paths))),
                                                  |AfterEvents(old(changed.paths), waiting)|)]
      && changed.paths == []
  {
    if |changed.paths| == 0 {
      return;
    }
    var outcome := generate(Prompt(changed.paths));
    DeliverEvents(changed, waiting);
    git.Commit(CommitMessage(timestamp, outcome, |changed.paths|));
    DeliverEvents(changed, committing);
    changed.Clear();
  }

  /**
   * Two timer ticks where the first cycle finishes before the second one
   * starts, with no event between them. Whatever arrived during the first
   * cycle was cleared with it, so the second tick commits nothing.
   */
  method TwoTicks(git: Repository, changed: ChangedFiles, first: string, second: string,
                  generate: string -> Option<string>,
                  waiting: seq<WatchEvent>, committing: seq<WatchEvent>)
    requires changed.Valid()
    modifies git, changed
    ensures changed.Valid()
    ensures old(changed.paths) != [] ==> changed.paths == []
    ensures git.log == old(git.log) +
      if old(changed.paths) == [] then []
      else [CommitMessage(first, generate(Prompt(old(changed.paths))),
                          |AfterEvents(old(changed.paths), waiting)|)]
  {
    CommitChanges(git, changed, first, generate, waiting, committing);
    ghost var afterFirst := git.log;
    CommitChanges(git, changed, second, generate, [], []);
    assert git.log == afterFirst;
  }
}

=== FILE: wrappers.dfy ===
/** Optional values: an absent file, a generator call that threw. */
module Wrappers {

  datatype Option<+T> = None | Some(value: T)
}
